=== FILE: README.md ===
# Breakaway Digital page script, modelled in Dafny

This project models the decision logic inside the event handlers of a
marketing site's `script.js`. It covers the following pieces:

- the email-shape check
- blur-time field validation with its inline error bookkeeping
- the current-page and active-link rules
- rendering of the canonical five-link navigation bar, and the navigation manager that rewrites or creates it
- the mobile-menu handlers
- the navbar scroll state
- the FAQ accordion
- the service switcher
- the final state of a newsletter submit

Each browser interaction becomes an immutable value and a pure transition
function over it. The properties the page relies on are proved as contracts
and lemmas.

Modules, one per component, leaf first:

- `Text` (`text.dfy`): ECMAScript whitespace (the `\s` class and the set
  `trim` removes), `trim`, `split`/`join` on one character, final path segment.
- `Email` (`email.dfy`): `validateEmail`, stated two ways. `MatchesPattern` is
  the language of `^[^\s@]+@[^\s@]+\.[^\s@]+$`. `ValidateEmail` is an
  executable characterisation of it. One lemma proves that the two agree.
- `FieldValidation` (`field_validation.dfy`): `validateField`,
  `showFieldError`, `clearFieldError`, and the blur/input wiring.
- `Flags` (`flags.dfy`): counting the `active` flags across a row of sibling items.
- `Faq` (`faq.dfy`): the accordion click.
- `ServiceSwitcher` (`service_switcher.dfy`): the static service table, the
  item activation, and the content swap.
- `MobileMenu` (`mobile_menu.dfy`): the hamburger toggle, the link-click and
  outside-click handlers, and handler re-binding.
- `Navigation` (`navigation.dfy`): `getCurrentPage`, `isActivePage`, link
  rendering, and `initUnifiedNavigation`.
- `NavbarScroll` (`navbar_scroll.dfy`): the scroll handler of `initNavbarScroll`.
- `Newsletter` (`newsletter.dfy`): the submit decision of `initNewsletter`.
- `Wrappers` (`wrappers.dfy`): `Option`.

The model follows the code where it departs from its own comments and from
what the page evidently expects:

- The initialisers do not check every element they look up. At load,
  `initNavigation` throws on a page without a `.hamburger` (script.js:22),
  `initFAQ` throws when a `.faq-item` has no `.faq-question` (script.js:101),
  and `initNewsletter` throws on a page without a `.newsletter-form`
  (script.js:123). Each throw stops the initialisers that come after it. A
  missing `.nav-menu` or newsletter message fails only later, inside a
  handler. The model assumes the elements exist.
- The comment at script.js:657 says the existing listeners are removed. Only
  the hamburger's own listeners are: the clone drops them. The document-level
  click handlers stay registered, which leads to the finding below.
- Every `input` and `textarea` of a form is validated on blur, an
  `<input type="submit">` included. `clearFieldError` removes the first `.field-error` anywhere under
  the field's parent. So leaving a passing sibling removes the message shown
  for another field, whose border stays red.
- `getCurrentPage` never returns the empty string. The third disjunct of
  `isActivePage` is therefore unreachable from the page itself, and the
  middle disjunct adds nothing to the first.

## Model

| member | source | states |
|---|---|---|
| Text.Trim | script.js:336 | The trimmed value is an infix of the input with only whitespace cut from each side. It neither starts nor ends with whitespace. It is empty exactly when the input is all whitespace. |
| Text.TrimIdempotent | script.js:336 | Trimming twice gives the same result as trimming once. |
| Text.JoinSplit | script.js:641 | Joining the pieces of `split('/')` with `/` gives back the path. |
| Text.SplitJoin | script.js:641 | Splitting a `/`-join of non-empty, separator-free lists of pieces gives back the pieces. |
| Text.LastPieceIsFinalSegment | script.js:641 | `pop()` of `split('/')` is the final segment. That is a separator-free suffix of the path, either the whole path or preceded by `/`. |
| Email.ValidateEmailMatchesPattern | script.js:146-149 | The check accepts a string exactly when the regular expression matches it. So it accepts exactly the strings with no whitespace, a single `@` with text before it, and a `.` after it with a character on each side. |
| Email.ExampleAddresses | script.js:146-149 | `a@b.c` matches the email shape and `not-an-email` does not. |
| FieldValidation.CheckValue | script.js:335-347 | Any failure carries one of the two messages, "This field is required" or "Please enter a valid email address". |
| FieldValidation.CheckValueMeaning | script.js:335-347 | A required blank field fails with "This field is required", whatever its type. An email field fails with "Please enter a valid email address" exactly when its trimmed value is non-blank and does not match. Any other value is valid. |
| FieldValidation.ClearFieldError | script.js:374-380 | The first error node under the parent is removed, if there is one, and the border is reset to `''`. A parent with at most one error is left with none. |
| FieldValidation.ShowFieldError | script.js:359-371 | Clears first, then appends one error node with the message and tints the border. The parent keeps its later nodes in order, followed by the new one. A parent with at most one error ends with exactly this one. |
| FieldValidation.ValidateField | script.js:335-356 | Returns true exactly when the decision is valid. Only the field's border changes: `''` on success, the error colour on failure. The parent's first error node is removed. On failure the decision's message is appended after the remaining nodes. The at-most-one-error invariant is kept. |
| FieldValidation.RunKeepsAtMostOneError | script.js:318-380 | Across any series of blur and input events on any fields under one parent, a parent that starts with at most one inline error never holds more than one. |
| FieldValidation.Step | script.js:318-330 | An event changes only the field it is on. A blur changes only that field's border, to match the decision. It removes the parent's first error node, and on a failing decision appends the decision's message after the remaining ones. Typing sets the value, resets the border and removes the parent's first error node. The at-most-one-error invariant is kept. |
| FieldValidation.InputClearsError | script.js:327-329 | Typing into a field removes the parent's displayed error and resets the field's border at once. |
| FieldValidation.ValidBlurRemovesSharedError | script.js:335-380 | Leaving a passing field removes the parent's error node, whichever field it was shown for, and leaves every other field's border alone. |
| FieldValidation.SiblingBlurHidesError | script.js:318-380 | Leaving a failing field and then a passing sibling leaves no message under the parent, while the failing field's border stays red. |
| FieldValidation.SubmitButtonPasses | script.js:318-347 | An `<input type="submit">` without a `required` attribute is not an email field, so leaving it always passes. |
| FieldValidation.SubmitButtonBlurHidesEmailError | script.js:318-380 | An email field holding `not-an-email` shows the format message when left. Leaving the form's `<input type="submit">` afterwards removes the message, and the field's border stays red. |
| FieldValidation.RequiredCheckComesFirst | script.js:341-347 | A blank value gets the required message when the field is required. It is valid when the field is optional, even in an email field. |
| FieldValidation.ExampleValidAddress | script.js:341-347 | A required email field holding `a@b.c` is valid. |
| FieldValidation.ExamplePaddedAddress | script.js:336-347 | A required email field holding `a@b.c` led by a no-break space is valid, because the value is trimmed before the format check. |
| FieldValidation.ExampleMalformedAddress | script.js:344-347 | `not-an-email` in an email field gets the format message. |
| Faq.ClickQuestion | script.js:101-113 | After a click on item i, every other item is closed and item i holds the negation of its previous state. |
| Faq.ClickLeavesAtMostOneOpen | script.js:101-113 | After any click, at most one item is open. Exactly one is open when the clicked item was closed. |
| Faq.OpeningAnotherClosesFirst | script.js:104-112 | Opening item B while item A is open closes A and opens B. |
| Faq.ClickingOpenItemClosesAll | script.js:102-112 | Clicking the open item leaves every item closed. |
| Faq.ClicksLeaveAtMostOneOpen | script.js:98-114 | After any non-empty series of clicks, from any starting state, at most one item is open. |
| ServiceSwitcher.UpdateServiceContent | script.js:531-554 | A label missing from the table leaves the panel unchanged. A listed label makes the panel show that record's image, alt text, title and two descriptions, faded back in. |
| ServiceSwitcher.ClickService | script.js:513-528 | The clicked item is active and no other item is. The panel is updated for the clicked item's label. |
| ServiceSwitcher.ClickLeavesOneActive | script.js:517-523 | After a click, exactly one service item is active. |
| ServiceSwitcher.TitlesMatchLabels | script.js:473-510 | Every record in the static table is titled by its own label. |
| ServiceSwitcher.ClickedTitleIsLabel | script.js:514-546 | After a click on a listed service, the panel's title is the clicked label. |
| ServiceSwitcher.LastSwapWins | script.js:531-554 | Of two consecutive swaps, the last listed label determines the panel. An unlisted second label keeps the first swap's content. |
| MobileMenu.AttachAsWritten | script.js:651-683 | Re-binding replaces the hamburger by a new node that keeps its classes. The earlier document-level handlers stay registered and one more is added. |
| MobileMenu.Attach | script.js:651-683 | The intended re-binding: a new hamburger node that keeps its classes, with only its own outside-click handler registered. |
| MobileMenu.OutsideHandler | script.js:676-681 | A click inside the menu, or on the handler's own hamburger node, changes nothing. A click elsewhere makes the current node's handler remove `active` from both the hamburger and the menu. A handler holding a replaced node removes it from the menu only, for a click elsewhere or on the current hamburger. A handler only ever closes the menu. |
| MobileMenu.Click | script.js:662-681 | A click keeps the hamburger node and the handlers. The menu is open after it only if it was closed and the hamburger was clicked, or it was open and the click stayed inside the menu off its links, or it was open and no outside-click handler is registered. |
| MobileMenu.ClickWhenBound | script.js:662-680 | With only the current handlers bound: the hamburger flips both classes; a link or outside click closes both; any other click inside the menu changes nothing. |
| MobileMenu.BoundClicksStaySynchronized | script.js:662-680 | With the intended binding, the hamburger's and the menu's `active` classes stay equal over any series of clicks. |
| MobileMenu.AttachedHamburgerOpensMenu | script.js:662-665 | With the intended binding, after any series of clicks since loading, a hamburger click opens a closed menu and closes an open one. The first click opens it. |
| MobileMenu.OutsideHandlersOnlyClose | script.js:36-41 | Document-level handlers never open the menu. A handler that holds a replaced hamburger node closes the menu on any click outside the menu. |
| MobileMenu.StaleHandlerKeepsMenuClosed | script.js:36-41 | While a handler for a replaced hamburger is registered, a closed menu stays closed whatever is clicked. |
| MobileMenu.AsWrittenMenuNeverOpens | script.js:36-41 | After `initNavigation` and the re-binding as written, no series of clicks leaves the menu open. |
| MobileMenu.AsWrittenHamburgerClickDesynchronizes | script.js:36-41 | After the re-binding as written, the first hamburger click leaves the hamburger marked active while the menu stays closed. |
| Navigation.GetCurrentPage | script.js:639-643 | The page is never empty and holds no `/`. It is the home page when the path is empty or ends in `/`. Otherwise it is the path's final segment. |
| Navigation.IsActivePage | script.js:645-649 | A link is active exactly when its href equals the page, or the page is empty and the href is the home page. |
| Navigation.RenderNavItems | script.js:587-591 | One link per item, in item order, with the item's href and text. Each link is active exactly when its href is the active page's. |
| Navigation.ActiveCountIsOneOrZero | script.js:587-591 | With distinct hrefs and a non-empty page, exactly one link is active when the page is one of the hrefs, and none otherwise. |
| Navigation.StandardHrefsDistinct | script.js:575-581 | The five canonical hrefs are pairwise distinct. |
| Navigation.StandardNavigation | script.js:599-621 | For every location path, the canonical bar has exactly one active link when the current page is one of the five pages, and none otherwise. |
| Navigation.HomeIdentifiersActivateHome | script.js:645-649 | The empty page identifier and `index.html` each activate the Home link and no other. |
| Navigation.HomePathsActivateHome | script.js:639-649 | The paths `""`, `/` and `/index.html` activate the Home link and no other. |
| Navigation.AttachNavigationEventListeners | script.js:651-683 | With a hamburger present, it is replaced by a new node with the same classes. The handlers registered before stay, and one for the new node is added after them. Without a hamburger, nothing changes. |
| Navigation.InitUnifiedNavigation | script.js:558-637 | An existing bar without a menu is left alone. Otherwise the page gets a bar whose menu is the canonical rendering for the current page. A created bar comes with a closed hamburger that has only its own handler. An existing bar's hamburger is replaced, keeps its classes, and its earlier handlers stay registered. |
| Navigation.ExistingBarMenuNeverOpens | script.js:651-683 | On a page that already has the bar, after `initNavigation` has bound the hamburger, no series of clicks leaves the menu open. |
| Navigation.InitUnifiedNavigationCorrected | script.js:558-637 | With the corrected re-binding, the visible bar is the same as the source's. Every hamburger it leaves has only its own handler. |
| Navigation.CorrectedExistingBarMenuOpens | script.js:651-683 | With the corrected re-binding on a page that already has the bar, a hamburger click opens the menu, and after any series of clicks it flips the menu. |
| Navigation.InitIdempotentOnVisibleNav | script.js:558-637 | Running the navigation manager twice leaves the same visible bar as running it once. |
| NavbarScroll.ScrollOffset | script.js:50 | The offset is one of the two readings. It is 0 exactly when both are. A non-zero page offset takes precedence. |
| NavbarScroll.OnScroll | script.js:52-65 | The background and shadow are the elevated ones exactly past 100 px. The bar is hidden exactly when it scrolls further down than the previous offset and past 200 px. |
| NavbarScroll.HiddenImpliesElevated | script.js:52-65 | A hidden bar always has the elevated background. Scrolling up or staying put never hides the bar. |
| NavbarScroll.Styles | script.js:47-67 | In a series of scroll events, each event reads its offset and is judged against the offset read by the event before it, and the first against the starting offset. |
| NavbarScroll.HiddenExactlyWhenScrollingDown | script.js:47-67 | From page load, the bar is hidden after an event exactly when that event's offset is further down than the previous one's and past 200 px. |
| NavbarScroll.TopOfPageRests | script.js:50-65 | When both readings are 0, the bar is shown with the resting background and no shadow. |
| Newsletter.Submit | script.js:123-142 | A submit shows the success message exactly when the raw value matches the email shape, and the error message otherwise. A successful submit resets the field. |
| Newsletter.SubmitDoesNotTrim | script.js:123-133 | `a@b.c` led by a no-break space passes the blur-time check of a required email field. On a form the browser does not validate itself, the submit handler rejects it. |
| Newsletter.DotlessDomainRejected | script.js:123-142 | `a@b`, which has no dot after the `@`, gets the error message on submit, and the field keeps its value. |

## Findings

| source | as written | input that shows it | evidently intended | confidence | as-written member | corrected member |
|---|---|---|---|---|---|---|
| script.js:36-41 | `attachNavigationEventListeners` clones the hamburger to drop its old listeners. The document click handler that `initNavigation` registered stays, and still refers to the old, detached hamburger. A hamburger click first opens the menu; the old handler then sees a target outside its node and outside the menu, and closes the menu again. | A page with `.navbar`, `.nav-menu`, `.hamburger` and `.newsletter-form`, loaded, then the hamburger clicked once | The click opens the mobile menu | medium; not executed | MobileMenu.AsWrittenMenuNeverOpens | MobileMenu.AttachedHamburgerOpensMenu |

The corrected binding `MobileMenu.Attach` deregisters the earlier
outside-click handlers along with the old node.
`Navigation.InitUnifiedNavigationCorrected` uses it, and
`Navigation.CorrectedExistingBarMenuOpens` shows the menu opening on a page
that already has the bar. `Navigation.ExistingBarMenuNeverOpens` is the same
page with the re-binding as written.

## Left out

- The fade-in, counter and lazy-load watchers (script.js:72-92, 279-313, 386-404) are left out. They are browser intersection callbacks, and the counter steps in floating point.
- The floating cards, parallax, and button, card and loading effects (script.js:175-273) are left out. They are styling, and the cards also use `Math.random`.
- Smooth scrolling (script.js:152-172) is left out because it depends on layout offsets.
- `throttle` and the timers of the newsletter submit and the service cross-fade (script.js:135-138, 407-418, 540-552) are not modelled as timing. Only the state after each delay is modelled, so the faded-out interval in between is not represented.
- The skip link (script.js:426-462), the bar's logo markup and `innerHTML` templating are left out. The rendered bar is a sequence of link records.
- Node replacement via `cloneNode`/`replaceChild` is represented by a fresh hamburger generation number, not by DOM identity.
- Console logging (script.js:686-687) is left out.
- Missing page elements, which make some initialisers throw and stop those after them, are left out. Every element the model reads is assumed present. Apart from the created bar described next, the page has one `.nav-menu` and one `.hamburger`.
- Navigation.InitUnifiedNavigation: the branch that creates a bar starts it from a fresh hamburger with only its own handler. A page reaches that branch only if it already has a `.hamburger` outside any `.navbar`, since otherwise `initNavigation` throws at script.js:22 and script.js:12 never runs. On such a page the document click handler that `initNavigation` registered (script.js:36) stays, holding that older hamburger and whatever `.nav-menu` existed at load. The model leaves out both that handler and the older hamburger. The handler acts on those other nodes, or throws on a missing menu, so the new bar's menu still opens as modelled.
- ServiceSwitcher.UpdateServiceContent: the lookup is map membership. In the source a label naming an inherited property of a JavaScript object, such as `constructor`, is also truthy and would write undefined fields. That case is not modelled.
- NavbarScroll.ScrollOffset: offsets are integers. Fractional scroll offsets are not modelled.
- The browser's sanitising of an email input's value, which strips ASCII whitespace from it, is left out. Values are taken as the script reads them, so the examples pad with a no-break space, which the input keeps.
- Newsletter.Submit: the model assumes the submit event reaches the handler, as it does on a form with `novalidate`. Otherwise the browser's own check of the email input blocks a value it rejects, such as `not-an-email`, before the handler runs, and the page shows the browser's message instead. Only values the browser accepts and the pattern rejects, such as `a@b`, then reach the error branch.
- The newsletter form's `reset` restores a default value, which is taken as a parameter.

=== FILE: email.dfy ===
/**
 The email-shape check `validateEmail`: the regular expression
 `^[^\s@]+@[^\s@]+\.[^\s@]+$`, a deliberately loose stand-in for the
 addr-spec of section 3.4.1 of RFC 5322.
 */
module Email {
  import opened Text

  /** A character of the class `[^\s@]`. */
  predicate IsPatternChar(c: char) {
    !IsWhitespace(c) && c != '@'
  }

  predicate AllPatternChars(s: string) {
    forall i :: 0 <= i < |s| ==> IsPatternChar(s[i])
  }

  /** `s` reads as `a@b.c` with the `@` at index `at`, the `.` at index `dot`,
      and each of `a`, `b`, `c` a non-empty run of `[^\s@]`. */
  ghost predicate SplitsAt(s: string, at: int, dot: int) {
    && 0 < at && at + 1 < dot && dot + 1 < |s|
    && s[at] == '@' && s[dot] == '.'
    && AllPatternChars(s[..at])
    && AllPatternChars(s[at + 1..dot])
    && AllPatternChars(s[dot + 1..])
  }

  /** The language of the regular expression: some split into `a@b.c`.
      Because `.` is itself in `[^\s@]`, the split need not be unique. */
  ghost predicate MatchesPattern(s: string) {
    exists at, dot :: SplitsAt(s, at, dot)
  }

  /** The domain part holds a `.` that is neither its first nor its last character. */
  predicate HasInnerDot(d: string) {
    exists k :: 1 <= k < |d| - 1 && d[k] == '.'
  }

  /** `validateEmail(email)`: no whitespace anywhere, exactly one `@`, a
      non-empty part before it, and an inner dot in the part after it. */
  function ValidateEmail(email: string): bool {
    && (forall i :: 0 <= i < |email| ==> !IsWhitespace(email[i]))
    && '@' in email
    && var at := IndexOf(email, '@');
       && 0 < at
       && '@' !in email[at + 1..]
       && HasInnerDot(email[at + 1..])
  }

  /** The check accepts exactly the strings the regular expression matches. */
  lemma ValidateEmailMatchesPattern(email: string)
    ensures ValidateEmail(email) <==> MatchesPattern(email)
  {
    if ValidateEmail(email) {
      AcceptedSplits(email);
    }
    if MatchesPattern(email) {
      var at, dot :| SplitsAt(email, at, dot);
      MatchedIsAccepted(email, at, dot);
    }
  }

  lemma AcceptedSplits(email: string)
    requires ValidateEmail(email)
    ensures MatchesPattern(email)
  {
    var at := IndexOf(email, '@');
    var d := email[at + 1..];
    var k :| 1 <= k < |d| - 1 && d[k] == '.';
    var dot := at + 1 + k;
    assert email[dot] == '.';
    forall i | 0 <= i < at
      ensures IsPatternChar(email[..at][i])
    {
      assert email[..at][i] in email[..at];
    }
    assert AllPatternChars(d) by {
      forall i | 0 <= i < |d|
        ensures IsPatternChar(d[i])
      {
        assert d[i] == email[at + 1 + i];
      }
    }
    assert email[at + 1..dot] == d[..k];
    assert email[dot + 1..] == d[k + 1..];
    assert SplitsAt(email, at, dot);
  }

  lemma MatchedIsAccepted(email: string, at: int, dot: int)
    requires SplitsAt(email, at, dot)
    ensures ValidateEmail(email)
  {
    forall i | 0 <= i < |email|
      ensures !IsWhitespace(email[i])
    {
      if i < at {
        assert email[i] == email[..at][i];
      } else if at < i < dot {
        assert email[i] == email[at + 1..dot][i - at - 1];
      } else if dot < i {
        assert email[i] == email[dot + 1..][i - dot - 1];
      }
    }
    assert '@' in email;
    assert IndexOf(email, '@') == at;
    var d := email[at + 1..];
    assert '@' !in d by {
      forall i | 0 <= i < |d|
        ensures d[i] != '@'
      {
        if at + 1 + i < dot {
          assert d[i] == email[at + 1..dot][i];
        } else if at + 1 + i > dot {
          assert d[i] == email[dot + 1..][at + i - dot];
        }
      }
    }
    assert d[dot - at - 1] == '.';
    assert HasInnerDot(d);
  }

  /** Two sample addresses: `a@b.c` passes, `not-an-email` fails. */
  lemma ExampleAddresses()
    ensures MatchesPattern("a@b.c")
    ensures !MatchesPattern("not-an-email")
  {
    assert SplitsAt("a@b.c", 1, 3);
    ValidateEmailMatchesPattern("not-an-email");
    assert '@' !in "not-an-email";
  }
}

=== FILE: faq.dfy ===
/**
 The FAQ accordion of `initFAQ`: one `active` flag per question/answer
 item, in page order.
 */
module Faq {
  import opened Flags

  /** A click on the question of item `i`: every other item is closed and
      item `i` is set to the opposite of what it was before the click. */
  function ClickQuestion(open: seq<bool>, i: nat): (r: seq<bool>)
    requires i < |open|
    ensures |r| == |open|
    ensures OnlyAt(r, i)
    ensures r[i] == !open[i]
  {
    var isActive := open[i];
    var othersClosed := seq(|open|, j requires 0 <= j < |open| => j == i && open[j]);
    othersClosed[i := !isActive]
  }

  /** Whatever was open before, at most one item is open after a click, and
      exactly one when the clicked item was closed. */
  lemma ClickLeavesAtMostOneOpen(open: seq<bool>, i: nat)
    requires i < |open|
    ensures CountTrue(ClickQuestion(open, i)) == if open[i] then 0 else 1
  {
    CountOnlyAt(ClickQuestion(open, i), i);
  }

  /** Opening item `b` while item `a` is open closes `a`. */
  lemma OpeningAnotherClosesFirst(open: seq<bool>, a: nat, b: nat)
    requires a < |open| && b < |open| && a != b
    requires open[a] && !open[b]
    ensures var r := ClickQuestion(open, b); r[b] && !r[a]
  {
  }

  /** Clicking the open item leaves every item closed. */
  lemma ClickingOpenItemClosesAll(open: seq<bool>, i: nat)
    requires i < |open| && open[i]
    ensures CountTrue(ClickQuestion(open, i)) == 0
  {
    ClickLeavesAtMostOneOpen(open, i);
  }

  function ClickQuestions(open: seq<bool>, clicks: seq<nat>): seq<bool>
    requires forall k :: 0 <= k < |clicks| ==> clicks[k] < |open|
    decreases |clicks|
  {
    if clicks == [] then open else ClickQuestions(ClickQuestion(open, clicks[0]), clicks[1..])
  }

  /** After any non-empty series of clicks, at most one item is open. */
  lemma {:induction false} ClicksLeaveAtMostOneOpen(open: seq<bool>, clicks: seq<nat>)
    requires clicks != []
    requires forall k :: 0 <= k < |clicks| ==> clicks[k] < |open|
    ensures |ClickQuestions(open, clicks)| == |open|
    ensures CountTrue(ClickQuestions(open, clicks)) <= 1
    decreases |clicks|
  {
    var next := ClickQuestion(open, clicks[0]);
    ClickLeavesAtMostOneOpen(open, clicks[0]);
    if |clicks| > 1 {
      ClicksLeaveAtMostOneOpen(next, clicks[1..]);
    }
  }
}

=== FILE: field_validation.dfy ===
/**
 Inline form-field validation: the blur-time decision of `validateField`
 and the error bookkeeping of `showFieldError` / `clearFieldError`.

 A field is seen together with the `.field-error` nodes under its parent
 node, in document order; only their messages matter here.
 */
module FieldValidation {
  import opened Text
  import opened Email

  const RequiredMessage := "This field is required"
  const EmailMessage := "Please enter a valid email address"
  /** Border colour set on a field in error; the cleared colour is "". */
  const ErrorColor := "#ef4444"

  datatype Field = Field(value: string, required: bool, fieldType: string, borderColor: string)

  /** A field and the messages of the `.field-error` nodes under its parent. */
  datatype FieldView = FieldView(field: Field, parentErrors: seq<string>)

  datatype Verdict = Valid | Invalid(message: string)

  /** The outcome of `validateField`: the value it returns and the page after it. */
  datatype Validation = Validation(isValid: bool, view: FieldView)

  /** The parent shows at most one inline error. */
  predicate AtMostOneError(errors: seq<string>) {
    |errors| <= 1
  }

  /** The decision of `validateField` on the raw value: the required check
      first, then the email format of the trimmed value. */
  function CheckValue(raw: string, required: bool, fieldType: string): (v: Verdict)
    ensures v.Invalid? ==> v.message == RequiredMessage || v.message == EmailMessage
  {
    var value := Trim(raw);
    if required && value == [] then Invalid(RequiredMessage)
    else if fieldType == "email" && value != [] && !ValidateEmail(value) then Invalid(EmailMessage)
    else Valid
  }

  /** What the decision means: a required blank field is reported missing,
      whatever its type, so the format check is never reached for it; an
      email field fails the format check exactly when its trimmed value is
      non-blank and does not have the email shape; all else is valid. */
  lemma CheckValueMeaning(raw: string, required: bool, fieldType: string)
    ensures required && AllWhitespace(raw) ==> CheckValue(raw, required, fieldType) == Invalid(RequiredMessage)
    ensures CheckValue(raw, required, fieldType) == Invalid(EmailMessage) <==>
              fieldType == "email" && !AllWhitespace(raw) && !MatchesPattern(Trim(raw))
    ensures CheckValue(raw, required, fieldType).Valid? <==>
              !(required && AllWhitespace(raw))
              && !(fieldType == "email" && !AllWhitespace(raw) && !MatchesPattern(Trim(raw)))
  {
    ValidateEmailMatchesPattern(Trim(raw));
  }

  /** `clearFieldError`: removes the first `.field-error` under the parent,
      if any, and always resets the border colour. */
  function ClearFieldError(v: FieldView): (r: FieldView)
    ensures r.field == v.field.(borderColor := "")
    ensures |r.parentErrors| == if v.parentErrors == [] then 0 else |v.parentErrors| - 1
    ensures r.parentErrors == v.parentErrors[|v.parentErrors| - |r.parentErrors|..]
    ensures AtMostOneError(v.parentErrors) ==> r.parentErrors == []
  {
    var errors := if v.parentErrors == [] then [] else v.parentErrors[1..];
    FieldView(v.field.(borderColor := ""), errors)
  }

  /** `showFieldError`: clears first, then appends one error node carrying
      `message` and tints the border. */
  function ShowFieldError(v: FieldView, message: string): (r: FieldView)
    ensures r.field == v.field.(borderColor := ErrorColor)
    ensures |r.parentErrors| == if v.parentErrors == [] then 1 else |v.parentErrors|
    ensures v.parentErrors != [] ==> r.parentErrors == v.parentErrors[1..] + [message]
    ensures r.parentErrors[|r.parentErrors| - 1] == message
    ensures AtMostOneError(v.parentErrors) ==> r.parentErrors == [message]
  {
    var cleared := ClearFieldError(v);
    var errors := cleared.parentErrors + [message];
    assert errors[|errors| - 1] == message;
    assert cleared.parentErrors == [] ==> errors == [message];
    FieldView(cleared.field.(borderColor := ErrorColor), errors)
  }

  /** The decision `validateField` takes for a field. */
  function Decision(f: Field): Verdict {
    CheckValue(f.value, f.required, f.fieldType)
  }

  /** `validateField`, run when the field loses focus. */
  function ValidateField(v: FieldView): (res: Validation)
    ensures res.isValid <==> Decision(v.field).Valid?
    ensures Decision(v.field).Invalid? ==>
              res.view.parentErrors != [] && Last(res.view.parentErrors) == Decision(v.field).message
    ensures res.view.field == v.field.(borderColor := if res.isValid then "" else ErrorColor)
    ensures res.isValid && v.parentErrors != [] ==> res.view.parentErrors == v.parentErrors[1..]
    ensures !res.isValid && v.parentErrors != [] ==>
              res.view.parentErrors == v.parentErrors[1..] + [Decision(v.field).message]
    ensures res.view.parentErrors ==
              (if v.parentErrors == [] then [] else v.parentErrors[1..])
              + (if res.isValid then [] else [Decision(v.field).message])
    ensures AtMostOneError(v.parentErrors) ==> AtMostOneError(res.view.parentErrors)
    ensures AtMostOneError(v.parentErrors) ==> (res.isValid <==> res.view.parentErrors == [])
  {
    var verdict := Decision(v.field);
    if verdict.Valid? then Validation(true, ClearFieldError(v))
    else Validation(false, ShowFieldError(v, verdict.message))
  }

  function Last(errors: seq<string>): string
    requires errors != []
  {
    errors[|errors| - 1]
  }

  /** The fields `initFormValidation` wires under one parent node (every
      `input` and `textarea` of a form, an `<input type="submit">` included), together
      with the messages of the `.field-error` nodes under that parent. */
  datatype FieldGroup = FieldGroup(fields: seq<Field>, parentErrors: seq<string>)

  /** The two events a field reacts to: losing focus, and typing (which
      replaces the value and immediately clears the inline error). */
  datatype FieldEvent = Blur(index: nat) | Input(index: nat, newValue: string)

  /** One event on field `e.index`. Its handler sees the errors of the whole
      parent, so it may remove a node a sibling's handler appended. */
  function Step(g: FieldGroup, e: FieldEvent): (r: FieldGroup)
    requires e.index < |g.fields|
    ensures |r.fields| == |g.fields|
    ensures forall j :: 0 <= j < |g.fields| && j != e.index ==> r.fields[j] == g.fields[j]
    ensures e.Blur? ==>
              r.fields[e.index] == g.fields[e.index].(borderColor := if Decision(g.fields[e.index]).Valid? then "" else ErrorColor)
    ensures e.Blur? && Decision(g.fields[e.index]).Invalid? ==>
              r.parentErrors != [] && Last(r.parentErrors) == Decision(g.fields[e.index]).message
    ensures e.Blur? ==>
              r.parentErrors == (if g.parentErrors == [] then [] else g.parentErrors[1..])
                                + (if Decision(g.fields[e.index]).Valid? then [] else [Decision(g.fields[e.index]).message])
    ensures e.Input? ==> r.fields[e.index] == g.fields[e.index].(value := e.newValue, borderColor := "")
    ensures e.Input? ==> r.parentErrors == if g.parentErrors == [] then [] else g.parentErrors[1..]
    ensures AtMostOneError(g.parentErrors) ==> AtMostOneError(r.parentErrors)
  {
    match e
    case Blur(i) => Replace(g, i, ValidateField(FieldView(g.fields[i], g.parentErrors)).view)
    case Input(i, value) => Replace(g, i, ClearFieldError(FieldView(g.fields[i].(value := value), g.parentErrors)))
  }

  /** The group after a handler on field `i` has left that field and the
      parent's errors as `w` shows them. */
  function Replace(g: FieldGroup, i: nat, w: FieldView): (r: FieldGroup)
    requires i < |g.fields|
    ensures |r.fields| == |g.fields| && r.fields[i] == w.field && r.parentErrors == w.parentErrors
    ensures forall j :: 0 <= j < |g.fields| && j != i ==> r.fields[j] == g.fields[j]
  {
    FieldGroup(g.fields[i := w.field], w.parentErrors)
  }

  /** Every event names one of the `n` fields. */
  predicate Addressed(n: nat, events: seq<FieldEvent>) {
    forall k :: 0 <= k < |events| ==> events[k].index < n
  }

  function Run(g: FieldGroup, events: seq<FieldEvent>): FieldGroup
    requires Addressed(|g.fields|, events)
    decreases |events|
  {
    if events == [] then g else Run(Step(g, events[0]), events[1..])
  }

  /** However the user blurs and types, in whichever fields, a parent that
      starts with at most one inline error never shows more than one. */
  lemma {:induction false} RunKeepsAtMostOneError(g: FieldGroup, events: seq<FieldEvent>)
    requires Addressed(|g.fields|, events)
    requires AtMostOneError(g.parentErrors)
    ensures AtMostOneError(Run(g, events).parentErrors)
    decreases |events|
  {
    if events != [] {
      RunKeepsAtMostOneError(Step(g, events[0]), events[1..]);
    }
  }

  /** A keystroke removes the displayed error at once. */
  lemma InputClearsError(g: FieldGroup, i: nat, value: string)
    requires i < |g.fields| && AtMostOneError(g.parentErrors)
    ensures Step(g, Input(i, value)).parentErrors == []
    ensures Step(g, Input(i, value)).fields[i].borderColor == ""
  {
  }

  /** Blurring a field that passes removes the error node under the shared
      parent, whichever field it was shown for, and leaves every other
      field's border as it was. */
  lemma ValidBlurRemovesSharedError(g: FieldGroup, i: nat)
    requires i < |g.fields| && AtMostOneError(g.parentErrors)
    requires Decision(g.fields[i]).Valid?
    ensures Step(g, Blur(i)).parentErrors == []
    ensures forall j :: 0 <= j < |g.fields| && j != i ==>
              Step(g, Blur(i)).fields[j].borderColor == g.fields[j].borderColor
  {
  }

  /** Leaving a failing field and then a passing sibling under the same
      parent removes the message while the failing field's border stays red. */
  lemma SiblingBlurHidesError(g: FieldGroup, i: nat, j: nat)
    requires i < |g.fields| && j < |g.fields| && i != j && g.parentErrors == []
    requires Decision(g.fields[i]).Invalid? && Decision(g.fields[j]).Valid?
    ensures var g1 := Step(g, Blur(i));
      && g1.parentErrors == [Decision(g.fields[i]).message]
      && Step(g1, Blur(j)).parentErrors == []
      && Step(g1, Blur(j)).fields[i].borderColor == ErrorColor
  {
    var g1 := Step(g, Blur(i));
    assert |g1.parentErrors| == 1 && Last(g1.parentErrors) == Decision(g.fields[i]).message;
    ValidBlurRemovesSharedError(g1, j);
  }

  /** An `<input type="submit">` carries no `required` attribute and is not
      an email field, so leaving it always passes. */
  lemma SubmitButtonPasses(f: Field)
    requires !f.required && f.fieldType == "submit"
    ensures Decision(f) == Valid
  {
    assert f.fieldType != "email" by { assert f.fieldType[1] != "email"[1]; }
  }

  /** In a form with an email field and an `<input type="submit">`, leaving
      the field with `not-an-email` and then leaving the submit input removes
      the message while the field's border stays red. */
  lemma SubmitButtonBlurHidesEmailError()
    ensures var g := FieldGroup([Field("not-an-email", false, "email", ""), Field("Subscribe", false, "submit", "")], []);
      var g1 := Step(g, Blur(0));
      && g1.parentErrors == [EmailMessage]
      && Step(g1, Blur(1)).parentErrors == []
      && Step(g1, Blur(1)).fields[0].borderColor == ErrorColor
  {
    var email := Field("not-an-email", false, "email", "");
    var button := Field("Subscribe", false, "submit", "");
    ExampleMalformedAddress();
    assert Decision(email) == Invalid(EmailMessage);
    SubmitButtonPasses(button);
    SiblingBlurHidesError(FieldGroup([email, button], []), 0, 1);
  }

  /** A blank value in a required field is reported as missing whatever
      the field's type, so the format message is never shown for it. */
  lemma RequiredCheckComesFirst(raw: string, fieldType: string)
    requires AllWhitespace(raw)
    ensures CheckValue(raw, true, fieldType) == Invalid(RequiredMessage)
    ensures CheckValue(raw, false, fieldType) == Valid
  {
  }

  /** A well-formed address passes. */
  lemma ExampleValidAddress()
    ensures CheckValue("a@b.c", true, "email") == Valid
  {
    ExampleAddresses();
    assert !IsWhitespace("a@b.c"[0]);
    assert TrimStart("a@b.c") == "a@b.c";
    assert TrimEnd("a@b.c") == "a@b.c";
  }

  /** A leading no-break space, which an email input keeps (it strips only
      ASCII whitespace from its value), is trimmed away before the format
      check. */
  lemma ExamplePaddedAddress()
    ensures CheckValue("\U{A0}a@b.c", true, "email") == Valid
  {
    var padded := "\U{A0}a@b.c";
    assert IsWhitespace(padded[0]);
    assert TrimStart(padded) == TrimStart(padded[1..]);
    assert padded[1..] == "a@b.c";
    ExampleValidAddress();
  }

  /** A value without the email shape in an email field gets the format message. */
  lemma ExampleMalformedAddress()
    ensures CheckValue("not-an-email", false, "email") == Invalid(EmailMessage)
  {
    ExampleAddresses();
    assert !IsWhitespace("not-an-email"[0]);
    assert TrimStart("not-an-email") == "not-an-email";
    assert TrimEnd("not-an-email") == "not-an-email";
  }
}

=== FILE: flags.dfy ===
/**
 Rows of on/off flags: the `active` class across a set of sibling items,
 as in the FAQ accordion and the service list.
 */
module Flags {

  /** How many flags are set. */
  function CountTrue(flags: seq<bool>): nat {
    if flags == [] then 0 else (if flags[0] then 1 else 0) + CountTrue(flags[1..])
  }

  /** No flag other than the one at `i` is set. */
  predicate OnlyAt(flags: seq<bool>, i: nat) {
    forall j :: 0 <= j < |flags| && j != i ==> !flags[j]
  }

  /** When nothing but position `i` can be set, the count is that flag alone. */
  lemma {:induction false} CountOnlyAt(flags: seq<bool>, i: nat)
    requires i < |flags| && OnlyAt(flags, i)
    ensures CountTrue(flags) == if flags[i] then 1 else 0
  {
    if i == 0 {
      NoneSet(flags[1..]);
    } else {
      assert OnlyAt(flags[1..], i - 1) by {
        forall j | 0 <= j < |flags| - 1 && j != i - 1
          ensures !flags[1..][j]
        {
          assert flags[1..][j] == flags[j + 1];
        }
      }
      CountOnlyAt(flags[1..], i - 1);
    }
  }

  lemma {:induction false} NoneSet(flags: seq<bool>)
    requires forall j :: 0 <= j < |flags| ==> !flags[j]
    ensures CountTrue(flags) == 0
  {
    if flags != [] {
      NoneSet(flags[1..]);
    }
  }
}

=== FILE: mobile_menu.dfy ===
/**
 The mobile menu: the hamburger toggle, the close-on-link handlers and the
 close-on-outside-click handlers that `initNavigation` installs and that
 `attachNavigationEventListeners` installs again after it has replaced the
 hamburger node by a clone.

 A click is a bubbling event: the handlers on the target run first, then
 every click handler registered on the document, in registration order.
 */
module MobileMenu {

  /** Where a click lands, as far as the menu handlers can tell targets apart. */
  datatype Target = Hamburger | MenuLink | MenuOther | Elsewhere

  /** `hamburger` names the hamburger node now in the page (each clone is a
      new node); the flags are that node's and the menu's `active` class;
      `outsideHandlers` lists the document-level click handlers in
      registration order, each by the hamburger node it closes over. */
  datatype Menu = Menu(hamburger: nat, hamburgerActive: bool, menuActive: bool, outsideHandlers: seq<nat>)

  /** The only outside-click handler is the one for the current hamburger. */
  predicate Bound(m: Menu) {
    m.outsideHandlers == [m.hamburger]
  }

  /** Hamburger and menu are both open or both closed. */
  predicate Synchronized(m: Menu) {
    m.hamburgerActive == m.menuActive
  }

  /** One document-level handler, closing over hamburger node `owner`: it
      closes the menu unless the target lies inside that node or inside the
      menu. A replaced hamburger node is detached, so no target lies inside
      it, and the `active` class it removes from it is no longer visible. */
  function OutsideHandler(m: Menu, owner: nat, t: Target): (r: Menu)
    ensures r.hamburger == m.hamburger && r.outsideHandlers == m.outsideHandlers
    ensures t == MenuLink || t == MenuOther ==> r == m
    ensures t == Elsewhere || (t == Hamburger && owner != m.hamburger) ==> !r.menuActive
    ensures t == Hamburger && owner == m.hamburger ==> r == m
    ensures r.menuActive ==> m.menuActive
    ensures owner != m.hamburger ==> r.hamburgerActive == m.hamburgerActive
    ensures owner == m.hamburger && t == Elsewhere ==> r == m.(hamburgerActive := false, menuActive := false)
    ensures owner != m.hamburger && (t == Elsewhere || t == Hamburger) ==> r == m.(menuActive := false)
  {
    var insideOwner := t == Hamburger && owner == m.hamburger;
    var insideMenu := t == MenuLink || t == MenuOther;
    if insideOwner || insideMenu then m
    else if owner == m.hamburger then m.(hamburgerActive := false, menuActive := false)
    else m.(menuActive := false)
  }

  function RunOutsideHandlers(m: Menu, owners: seq<nat>, t: Target): Menu
    decreases |owners|
  {
    if owners == [] then m else RunOutsideHandlers(OutsideHandler(m, owners[0], t), owners[1..], t)
  }

  /** A click: the target's own handler (the hamburger toggles both classes,
      a menu link removes both), then the document-level handlers. */
  function Click(m: Menu, t: Target): (r: Menu)
    ensures r.hamburger == m.hamburger && r.outsideHandlers == m.outsideHandlers
    ensures r.menuActive ==> (t == Hamburger && !m.menuActive) || (t == MenuOther && m.menuActive)
                              || (t == Elsewhere && m.outsideHandlers == [] && m.menuActive)
  {
    var atTarget :=
      match t
      case Hamburger => m.(hamburgerActive := !m.hamburgerActive, menuActive := !m.menuActive)
      case MenuLink => m.(hamburgerActive := false, menuActive := false)
      case _ => m;
    OutsideHandlersOnlyClose(atTarget, m.outsideHandlers, t);
    RunOutsideHandlers(atTarget, m.outsideHandlers, t)
  }

  function Clicks(m: Menu, ts: seq<Target>): Menu
    decreases |ts|
  {
    if ts == [] then m else Clicks(Click(m, ts[0]), ts[1..])
  }

  /** State after `initNavigation`: hamburger node 0, closed, one handler. */
  const Initial := Menu(0, false, false, [0])

  /** A hamburger node freshly inserted into the page: closed, no handlers. */
  const Inserted := Menu(0, false, false, [])

  /** `attachNavigationEventListeners` as written: the hamburger is replaced
      by a clone (which keeps its classes but not its listeners) and a new
      document-level handler is added, while the earlier ones stay. */
  function AttachAsWritten(m: Menu): (r: Menu)
    ensures r.hamburger != m.hamburger
    ensures r.outsideHandlers == m.outsideHandlers + [r.hamburger]
    ensures r.hamburgerActive == m.hamburgerActive && r.menuActive == m.menuActive
  {
    var h := m.hamburger + 1;
    Menu(h, m.hamburgerActive, m.menuActive, m.outsideHandlers + [h])
  }

  /** The attachment as intended: the earlier document-level handlers are
      deregistered along with the old node, so no stale handler survives. */
  function Attach(m: Menu): (r: Menu)
    ensures r.hamburger != m.hamburger && Bound(r)
    ensures r.hamburgerActive == m.hamburgerActive && r.menuActive == m.menuActive
  {
    var h := m.hamburger + 1;
    Menu(h, m.hamburgerActive, m.menuActive, [h])
  }

  /** With only the current handler registered, the hamburger flips both
      classes, a link or an outside click closes both, and a click inside
      the menu that is not on a link changes nothing. */
  lemma ClickWhenBound(m: Menu, t: Target)
    requires Bound(m)
    ensures Bound(Click(m, t))
    ensures t == Hamburger ==>
              Click(m, t) == m.(hamburgerActive := !m.hamburgerActive, menuActive := !m.menuActive)
    ensures t == MenuLink || t == Elsewhere ==>
              Click(m, t) == m.(hamburgerActive := false, menuActive := false)
    ensures t == MenuOther ==> Click(m, t) == m
    ensures Synchronized(m) ==> Synchronized(Click(m, t))
  {
    var atTarget :=
      match t
      case Hamburger => m.(hamburgerActive := !m.hamburgerActive, menuActive := !m.menuActive)
      case MenuLink => m.(hamburgerActive := false, menuActive := false)
      case _ => m;
    assert Click(m, t) == RunOutsideHandlers(atTarget, [m.hamburger], t);
    assert [m.hamburger][1..] == [];
    assert RunOutsideHandlers(atTarget, [m.hamburger], t)
        == RunOutsideHandlers(OutsideHandler(atTarget, m.hamburger, t), [], t);
  }

  /** With the intended attachment, whatever the user has clicked since the
      page loaded, a hamburger click opens a closed menu and closes an open
      one; the first hamburger click after loading opens it. */
  lemma {:induction false} AttachedHamburgerOpensMenu(ts: seq<Target>)
    ensures var m := Clicks(Attach(Initial), ts);
      Click(m, Hamburger).menuActive == !m.menuActive
    ensures Click(Attach(Initial), Hamburger).menuActive
  {
    BoundClicksStaySynchronized(Attach(Initial), ts);
    ClickWhenBound(Clicks(Attach(Initial), ts), Hamburger);
    ClickWhenBound(Attach(Initial), Hamburger);
  }

  /** As written, the first hamburger click after the re-binding leaves the
      hamburger marked active while the menu stays closed. */
  lemma AsWrittenHamburgerClickDesynchronizes()
    ensures Click(AttachAsWritten(Initial), Hamburger) == AttachAsWritten(Initial).(hamburgerActive := true)
  {
    var m := AttachAsWritten(Initial);
    var atTarget := m.(hamburgerActive := true, menuActive := true);
    assert m.outsideHandlers == [0, 1] && m.hamburger == 1;
    assert RunOutsideHandlers(atTarget, [0, 1], Hamburger)
        == RunOutsideHandlers(atTarget.(menuActive := false), [1], Hamburger);
    assert [0, 1][1..] == [1] && [1][1..] == [];
  }

  /** With the intended attachment the hamburger's and the menu's classes
      never drift apart, whatever the user clicks. */
  lemma {:induction false} BoundClicksStaySynchronized(m: Menu, ts: seq<Target>)
    requires Bound(m) && Synchronized(m)
    ensures Bound(Clicks(m, ts)) && Synchronized(Clicks(m, ts))
    decreases |ts|
  {
    if ts != [] {
      ClickWhenBound(m, ts[0]);
      BoundClicksStaySynchronized(Click(m, ts[0]), ts[1..]);
    }
  }

  /** Document-level handlers only ever close the menu; once a handler for
      a replaced hamburger has seen a click, the menu is closed. */
  lemma {:induction false} OutsideHandlersOnlyClose(m: Menu, owners: seq<nat>, t: Target)
    ensures RunOutsideHandlers(m, owners, t).hamburger == m.hamburger
    ensures RunOutsideHandlers(m, owners, t).outsideHandlers == m.outsideHandlers
    ensures RunOutsideHandlers(m, owners, t).menuActive ==> m.menuActive
    ensures (exists k :: 0 <= k < |owners| && owners[k] != m.hamburger) && t != MenuLink && t != MenuOther
            ==> !RunOutsideHandlers(m, owners, t).menuActive
    ensures owners != [] && t == Elsewhere ==> !RunOutsideHandlers(m, owners, t).menuActive
    decreases |owners|
  {
    if owners != [] {
      var next := OutsideHandler(m, owners[0], t);
      OutsideHandlersOnlyClose(next, owners[1..], t);
      if (exists k :: 0 <= k < |owners| && owners[k] != m.hamburger) && t != MenuLink && t != MenuOther {
        var k :| 0 <= k < |owners| && owners[k] != m.hamburger;
        if k > 0 {
          assert owners[1..][k - 1] != next.hamburger;
        }
      }
    }
  }

  /** After the page script as written has run, the hamburger can never
      open the menu: whatever the user clicks, the handler that
      `initNavigation` left on the document closes the menu again. */
  lemma {:induction false} AsWrittenMenuNeverOpens(ts: seq<Target>)
    ensures !Clicks(AttachAsWritten(Initial), ts).menuActive
  {
    var m := AttachAsWritten(Initial);
    assert m.outsideHandlers[0] != m.hamburger;
    StaleHandlerKeepsMenuClosed(m, ts);
  }

  lemma {:induction false} StaleHandlerKeepsMenuClosed(m: Menu, ts: seq<Target>)
    requires !m.menuActive
    requires exists k :: 0 <= k < |m.outsideHandlers| && m.outsideHandlers[k] != m.hamburger
    ensures !Clicks(m, ts).menuActive
    decreases |ts|
  {
    if ts != [] {
      var t := ts[0];
      var atTarget :=
        match t
        case Hamburger => m.(hamburgerActive := !m.hamburgerActive, menuActive := !m.menuActive)
        case MenuLink => m.(hamburgerActive := false, menuActive := false)
        case _ => m;
      OutsideHandlersOnlyClose(atTarget, m.outsideHandlers, t);
      var k :| 0 <= k < |m.outsideHandlers| && m.outsideHandlers[k] != m.hamburger;
      assert Click(m, t).outsideHandlers[k] != Click(m, t).hamburger;
      StaleHandlerKeepsMenuClosed(Click(m, t), ts[1..]);
    }
  }
}

=== FILE: navbar_scroll.dfy ===
/**
 The navbar scroll effect of `initNavbarScroll`: on each scroll event the
 bar is given a stronger background and a shadow past 100 px, and is slid
 out of view while scrolling down past 200 px. The handler remembers the
 previous offset, which starts at 0.
 */
module NavbarScroll {

  const ElevatedBackground := "rgba(255, 255, 255, 0.98)"
  const RestingBackground := "rgba(255, 255, 255, 0.95)"
  const ElevatedShadow := "0 2px 20px rgba(0, 0, 0, 0.1)"
  const RestingShadow := "none"
  const HiddenTransform := "translateY(-100%)"
  const ShownTransform := "translateY(0)"

  datatype NavbarStyle = NavbarStyle(background: string, boxShadow: string, transform: string)

  /** The two readings of the scroll offset a handler run can see:
      `window.pageYOffset` and `document.documentElement.scrollTop`. */
  datatype ScrollReading = ScrollReading(pageYOffset: int, documentScrollTop: int)

  /** `window.pageYOffset || document.documentElement.scrollTop`: a zero
      page offset is falsy and falls through to the element's offset. */
  function ScrollOffset(r: ScrollReading): (top: int)
    ensures top == r.pageYOffset || top == r.documentScrollTop
    ensures top == 0 <==> r.pageYOffset == 0 && r.documentScrollTop == 0
    ensures r.pageYOffset != 0 ==> top == r.pageYOffset
  {
    if r.pageYOffset != 0 then r.pageYOffset else r.documentScrollTop
  }

  /** The style one scroll event sets, given the previous offset. */
  function OnScroll(lastScrollTop: int, scrollTop: int): (style: NavbarStyle)
    ensures style.background == ElevatedBackground <==> scrollTop > 100
    ensures style.boxShadow == ElevatedShadow <==> scrollTop > 100
    ensures style.transform == HiddenTransform <==> scrollTop > lastScrollTop && scrollTop > 200
  {
    var elevated := scrollTop > 100;
    NavbarStyle(
      if elevated then ElevatedBackground else RestingBackground,
      if elevated then ElevatedShadow else RestingShadow,
      if scrollTop > lastScrollTop && scrollTop > 200 then HiddenTransform else ShownTransform)
  }

  /** A hidden bar is always also the elevated one, and scrolling up or
      staying put never hides it. */
  lemma HiddenImpliesElevated(lastScrollTop: int, scrollTop: int)
    ensures OnScroll(lastScrollTop, scrollTop).transform == HiddenTransform ==>
              OnScroll(lastScrollTop, scrollTop).background == ElevatedBackground
    ensures scrollTop <= lastScrollTop ==> OnScroll(lastScrollTop, scrollTop).transform == ShownTransform
  {
    assert HiddenTransform != ShownTransform by { assert HiddenTransform[11] != ShownTransform[11]; }
  }

  /** The styles set by a series of scroll events, each handler run
      reading its offset and updating the remembered offset to it. */
  function Styles(lastScrollTop: int, readings: seq<ScrollReading>): (styles: seq<NavbarStyle>)
    ensures |styles| == |readings|
    ensures forall k :: 0 <= k < |readings| ==>
              styles[k] == OnScroll(if k == 0 then lastScrollTop else ScrollOffset(readings[k - 1]),
                                    ScrollOffset(readings[k]))
    decreases |readings|
  {
    if readings == [] then []
    else
      var rest := Styles(ScrollOffset(readings[0]), readings[1..]);
      var styles := [OnScroll(lastScrollTop, ScrollOffset(readings[0]))] + rest;
      assert forall k :: 1 <= k < |readings| ==> styles[k] == rest[k - 1] && readings[k] == readings[1..][k - 1];
      styles
  }

  /** From page load, the bar is hidden after event `k` exactly when that
      event's offset is further down than the one before it (or than the
      top, for the first) and past 200 px. */
  lemma HiddenExactlyWhenScrollingDown(readings: seq<ScrollReading>, k: nat)
    requires k < |readings|
    ensures var top := ScrollOffset(readings[k]);
      Styles(0, readings)[k].transform == HiddenTransform <==>
        top > (if k == 0 then 0 else ScrollOffset(readings[k - 1])) && top > 200
  {
    var previous := if k == 0 then 0 else ScrollOffset(readings[k - 1]);
    assert Styles(0, readings)[k] == OnScroll(previous, ScrollOffset(readings[k]));
  }

  /** At the very top of the page, where both readings are 0, the bar rests:
      it is shown with the resting background and no shadow. */
  lemma TopOfPageRests(lastScrollTop: int, r: ScrollReading)
    requires r.pageYOffset == 0 && r.documentScrollTop == 0
    ensures OnScroll(lastScrollTop, ScrollOffset(r)) == NavbarStyle(RestingBackground, RestingShadow, ShownTransform)
  {
  }
}

=== FILE: navigation.dfy ===
/**
 The unified navigation bar: deriving the current page from the location
 path, deciding which link is active, rendering the canonical link table,
 and `initUnifiedNavigation`, which rewrites an existing bar's link list or
 creates a full bar, then binds the mobile-menu handlers.
 */
module Navigation {
  import opened Text
  import opened Wrappers
  import opened Flags
  import MobileMenu

  /** The home page identifier, used when the path has no final segment. */
  const HomePage := "index.html"

  datatype NavItem = NavItem(href: string, text: string)

  /** The single, ordered source of truth for the site's links. */
  const StandardNavItems: seq<NavItem> := [
    NavItem("index.html", "Home"),
    NavItem("services.html", "Services"),
    NavItem("about.html", "About"),
    NavItem("blog.html", "Who I Work With"),
    NavItem("contact.html", "Contact")
  ]

  /** A rendered `<a class="nav-link">`, with its `active` class. */
  datatype NavLink = NavLink(href: string, text: string, active: bool)

  /** `getCurrentPage`: the final `/`-separated segment of the path, or the
      home page when that segment is empty. */
  function GetCurrentPage(path: string): (page: string)
    ensures page != [] && '/' !in page
    ensures path == [] || path[|path| - 1] == '/' ==> page == HomePage
    ensures path != [] && path[|path| - 1] != '/' ==> IsFinalSegment(page, path, '/')
  {
    var parts := Split(path, '/');
    LastPieceIsFinalSegment(path, '/');
    var last := parts[|parts| - 1];
    assert last != [] ==> last[|last| - 1] == path[|path| - 1];
    if last == [] then HomePage else last
  }

  /** `isActivePage`: the middle disjunct of the source (page and href both
      the home page) is subsumed by the first, so activity is equality,
      except that an empty page activates the home link. */
  function IsActivePage(href: string, currentPage: string): (active: bool)
    ensures active <==> href == currentPage || (currentPage == [] && href == HomePage)
  {
    || currentPage == href
    || (currentPage == HomePage && href == HomePage)
    || (currentPage == [] && href == HomePage)
  }

  /** The link list of `updateExistingNavigation` and `createNewNavigation`:
      one link per item, in the items' order. */
  function RenderNavItems(items: seq<NavItem>, currentPage: string): (links: seq<NavLink>)
    ensures |links| == |items|
    ensures forall k :: 0 <= k < |items| ==>
              && links[k].href == items[k].href
              && links[k].text == items[k].text
              && (links[k].active <==> IsActivePage(items[k].href, currentPage))
  {
    if items == [] then []
    else
      var first := NavLink(items[0].href, items[0].text, IsActivePage(items[0].href, currentPage));
      var rest := RenderNavItems(items[1..], currentPage);
      assert forall k :: 1 <= k < |items| ==> ([first] + rest)[k] == rest[k - 1] && items[k] == items[1..][k - 1];
      [first] + rest
  }

  predicate DistinctHrefs(items: seq<NavItem>) {
    forall j, k :: 0 <= j < k < |items| ==> items[j].href != items[k].href
  }

  predicate HasHref(items: seq<NavItem>, href: string) {
    exists k :: 0 <= k < |items| && items[k].href == href
  }

  /** The `active` class of each rendered link, in order. */
  function ActiveFlags(links: seq<NavLink>): (flags: seq<bool>)
    ensures |flags| == |links|
    ensures forall k :: 0 <= k < |links| ==> flags[k] == links[k].active
  {
    seq(|links|, k requires 0 <= k < |links| => links[k].active)
  }

  /** How many rendered links carry the `active` class. */
  function ActiveCount(links: seq<NavLink>): nat {
    CountTrue(ActiveFlags(links))
  }

  /** With distinct hrefs, exactly one link is active when the (non-empty)
      page names one of them, and none otherwise. */
  lemma ActiveCountIsOneOrZero(items: seq<NavItem>, currentPage: string)
    requires DistinctHrefs(items) && currentPage != []
    ensures ActiveCount(RenderNavItems(items, currentPage))
            == if HasHref(items, currentPage) then 1 else 0
  {
    var flags := ActiveFlags(RenderNavItems(items, currentPage));
    if HasHref(items, currentPage) {
      var i :| 0 <= i < |items| && items[i].href == currentPage;
      assert OnlyAt(flags, i);
      CountOnlyAt(flags, i);
    } else {
      NoneSet(flags);
    }
  }

  /** On every path exactly one of the five canonical links is active when
      the current page is one of the five pages, and none otherwise. */
  lemma StandardNavigation(path: string)
    ensures ActiveCount(RenderNavItems(StandardNavItems, GetCurrentPage(path)))
            == if HasHref(StandardNavItems, GetCurrentPage(path)) then 1 else 0
  {
    StandardHrefsDistinct();
    ActiveCountIsOneOrZero(StandardNavItems, GetCurrentPage(path));
  }

  lemma StandardHrefsDistinct()
    ensures DistinctHrefs(StandardNavItems)
  {
    assert "index.html"[0] != "about.html"[0];
  }

  /** Both home-page identifiers, the empty one and `index.html`, activate
      the Home link and no other. */
  lemma HomeIdentifiersActivateHome(currentPage: string)
    requires currentPage == [] || currentPage == HomePage
    ensures var links := RenderNavItems(StandardNavItems, currentPage);
      links[0].active && forall k :: 1 <= k < |links| ==> !links[k].active
  {
    StandardHrefsDistinct();
  }

  /** The home-page spellings of the path all activate the Home link and no other. */
  lemma HomePathsActivateHome(path: string)
    requires path == "" || path == "/" || path == "/index.html"
    ensures var links := RenderNavItems(StandardNavItems, GetCurrentPage(path));
      links[0].active && forall k :: 1 <= k < |links| ==> !links[k].active
  {
    if path == "/index.html" {
      LastPieceIsFinalSegment(path, '/');
      assert IsFinalSegment(HomePage, path, '/') by {
        assert path[|path| - |HomePage|..] == HomePage;
      }
      FinalSegmentUnique(GetCurrentPage(path), HomePage, path, '/');
    }
    assert GetCurrentPage(path) == HomePage;
    HomeIdentifiersActivateHome(HomePage);
  }

  /** The part of the page the navigation manager owns: whether a `.navbar`
      exists, the `.nav-menu` link list, and the mobile-menu toggle state
      (absent when there is no hamburger). */
  datatype NavDocument = NavDocument(hasNavbar: bool, menu: Option<seq<NavLink>>, toggle: Option<MobileMenu.Menu>)

  /** The links and classes a visitor sees, without node identities. */
  datatype VisibleNav = VisibleNav(hasNavbar: bool, menu: Option<seq<NavLink>>, open: Option<(bool, bool)>)

  function Visible(d: NavDocument): VisibleNav {
    VisibleNav(d.hasNavbar, d.menu,
      match d.toggle
      case None => None
      case Some(m) => Some((m.hamburgerActive, m.menuActive)))
  }

  /** `attachNavigationEventListeners`: when both the hamburger and the menu
      are present, the hamburger is replaced by a clone with fresh handlers
      and one more outside-click handler is registered on the document; the
      handlers registered earlier stay. */
  function AttachNavigationEventListeners(toggle: Option<MobileMenu.Menu>): (r: Option<MobileMenu.Menu>)
    ensures r.Some? <==> toggle.Some?
    ensures toggle.Some? ==>
              && r.value.hamburger != toggle.value.hamburger
              && r.value.outsideHandlers == toggle.value.outsideHandlers + [r.value.hamburger]
              && r.value.hamburgerActive == toggle.value.hamburgerActive
              && r.value.menuActive == toggle.value.menuActive
  {
    match toggle
    case None => None
    case Some(m) => Some(MobileMenu.AttachAsWritten(m))
  }

  /** `initUnifiedNavigation` for the location path `path`. A bar it creates
      brings a hamburger node with no handlers yet. */
  function InitUnifiedNavigation(d: NavDocument, path: string): (r: NavDocument)
    ensures r.hasNavbar
    ensures d.hasNavbar && d.menu.None? ==> r == d
    ensures !d.hasNavbar || d.menu.Some? ==>
              r.menu == Some(RenderNavItems(StandardNavItems, GetCurrentPage(path)))
    ensures !d.hasNavbar ==>
              && r.toggle.Some? && MobileMenu.Bound(r.toggle.value)
              && !r.toggle.value.hamburgerActive && !r.toggle.value.menuActive
    ensures d.hasNavbar ==> (r.toggle.Some? <==> d.toggle.Some?)
    ensures d.hasNavbar && d.menu.Some? && d.toggle.Some? ==>
              && r.toggle.value.hamburger != d.toggle.value.hamburger
              && r.toggle.value.outsideHandlers == d.toggle.value.outsideHandlers + [r.toggle.value.hamburger]
              && r.toggle.value.hamburgerActive == d.toggle.value.hamburgerActive
              && r.toggle.value.menuActive == d.toggle.value.menuActive
  {
    var links := RenderNavItems(StandardNavItems, GetCurrentPage(path));
    if d.hasNavbar then
      if d.menu.None? then d
      else NavDocument(true, Some(links), AttachNavigationEventListeners(d.toggle))
    else
      NavDocument(true, Some(links), AttachNavigationEventListeners(Some(MobileMenu.Inserted)))
  }

  /** On a page that already has the bar, after `initNavigation` has bound
      the hamburger, the navigation manager leaves a menu that no series of
      clicks opens. */
  lemma ExistingBarMenuNeverOpens(links: seq<NavLink>, path: string, ts: seq<MobileMenu.Target>)
    ensures var r := InitUnifiedNavigation(NavDocument(true, Some(links), Some(MobileMenu.Initial)), path);
      r.toggle.Some? && !MobileMenu.Clicks(r.toggle.value, ts).menuActive
  {
    MobileMenu.AsWrittenMenuNeverOpens(ts);
  }

  /** The navigation manager with the corrected re-binding, which drops the
      earlier outside-click handlers along with the old hamburger node. */
  function InitUnifiedNavigationCorrected(d: NavDocument, path: string): (r: NavDocument)
    ensures Visible(r) == Visible(InitUnifiedNavigation(d, path))
    ensures r.toggle.Some? && (!d.hasNavbar || d.menu.Some?) ==> MobileMenu.Bound(r.toggle.value)
  {
    var links := RenderNavItems(StandardNavItems, GetCurrentPage(path));
    if d.hasNavbar then
      if d.menu.None? then d
      else
        NavDocument(true, Some(links),
          match d.toggle
          case None => None
          case Some(m) => Some(MobileMenu.Attach(m)))
    else
      NavDocument(true, Some(links), Some(MobileMenu.Attach(MobileMenu.Inserted)))
  }

  /** With the corrected re-binding, on a page that already has the bar,
      a hamburger click flips the menu whatever was clicked before, and the
      first click opens it. */
  lemma CorrectedExistingBarMenuOpens(links: seq<NavLink>, path: string, ts: seq<MobileMenu.Target>)
    ensures var r := InitUnifiedNavigationCorrected(NavDocument(true, Some(links), Some(MobileMenu.Initial)), path);
      && r.toggle.Some?
      && MobileMenu.Click(r.toggle.value, MobileMenu.Hamburger).menuActive
      && var m := MobileMenu.Clicks(r.toggle.value, ts);
         MobileMenu.Click(m, MobileMenu.Hamburger).menuActive == !m.menuActive
  {
    MobileMenu.AttachedHamburgerOpensMenu(ts);
  }

  /** Calling the navigation manager again leaves the visible bar as it was
      (only node identities change). */
  lemma InitIdempotentOnVisibleNav(d: NavDocument, path: string)
    ensures Visible(InitUnifiedNavigation(InitUnifiedNavigation(d, path), path))
            == Visible(InitUnifiedNavigation(d, path))
  {
  }
}

=== FILE: newsletter.dfy ===
/**
 The newsletter form of `initNewsletter`: on submit both messages are
 hidden, then either the error message is shown or, after a simulated
 500 ms request, the success message is shown and the form is reset.
 Only the state after the delay is modelled.
 */
module Newsletter {
  import opened Text
  import opened Email
  import FieldValidation

  datatype NewsletterView = NewsletterView(emailValue: string, successShown: bool, errorShown: bool)

  /** A submit. The raw field value is checked, without trimming; `reset`
      restores the field's default value. */
  function Submit(v: NewsletterView, defaultValue: string): (r: NewsletterView)
    ensures r.successShown <==> MatchesPattern(v.emailValue)
    ensures r.errorShown <==> !r.successShown
    ensures r.emailValue == if r.successShown then defaultValue else v.emailValue
  {
    ValidateEmailMatchesPattern(v.emailValue);
    if ValidateEmail(v.emailValue) then NewsletterView(defaultValue, true, false)
    else NewsletterView(v.emailValue, false, true)
  }

  /** A no-break space before an address survives the email input's own
      sanitising and is trimmed by the blur-time field check but not by the
      submit check: the same value passes one and fails the other. The
      submit handler sees it only on a form the browser does not validate
      itself (`novalidate`). */
  lemma SubmitDoesNotTrim(v: NewsletterView, defaultValue: string)
    requires v.emailValue == "\U{A0}a@b.c"
    ensures FieldValidation.CheckValue(v.emailValue, true, "email").Valid?
    ensures Submit(v, defaultValue).errorShown
  {
    FieldValidation.ExamplePaddedAddress();
    ValidateEmailMatchesPattern(v.emailValue);
    assert IsWhitespace(v.emailValue[0]);
  }

  /** A value the browser's own email-input check accepts, having no dot
      after the `@`, is still rejected by the handler's pattern. */
  lemma DotlessDomainRejected(v: NewsletterView, defaultValue: string)
    requires v.emailValue == "a@b"
    ensures Submit(v, defaultValue).errorShown && !Submit(v, defaultValue).successShown
    ensures Submit(v, defaultValue).emailValue == "a@b"
  {
    ValidateEmailMatchesPattern(v.emailValue);
    assert IndexOf(v.emailValue, '@') == 1;
    assert !HasInnerDot("b");
  }
}

=== FILE: service_switcher.dfy ===
/**
 The service switcher of `initServiceSwitching`: clicking a service item
 marks it as the only active one and, when its label is in the static
 table, replaces the detail panel's image, title and two descriptions.
 The panel is faded out, changed 250 ms later and faded back in; only the
 state after the swap is modelled.
 */
module ServiceSwitcher {
  import opened Flags

  datatype ServiceRecord = ServiceRecord(image: string, title: string, description1: string, description2: string)

  /** The static label-to-content table. */
  const ServicesData: map<string, ServiceRecord> := map[
    "Business Strategy" := ServiceRecord(
      "https://images.unsplash.com/photo-1552664730-d307ca884978?ixlib=rb-4.0.3&ixid=M3wxMjA3fDB8MHxwaG90by1wYWdlfHx8fGVufDB8fHx8fA%3D%3D&auto=format&fit=crop&w=1000&q=80",
      "Business Strategy",
      "Lorem ipsum dolor sit amet, consectetur adipiscing elit. Suspendisse varius enim in eros elementum tristique. Duis cursus, mi quis viverra ornare, eros dolor interdum nulla, ut commodo diam libero vitae erat.",
      "Aenean faucibus nibh et justo cursus id rutrum lorem imperdiet. Nunc ut sem vitae risus tristique posuere. Duis cursus, mi quis viverra ornare, eros dolor interdum nulla, ut commodo diam libero vitae erat."),
    "Process Optimization" := ServiceRecord(
      "https://images.unsplash.com/photo-1551434678-e076c223a692?ixlib=rb-4.0.3&ixid=M3wxMjA3fDB8MHxwaG90by1wYWdlfHx8fGVufDB8fHx8fA%3D%3D&auto=format&fit=crop&w=1000&q=80",
      "Process Optimization",
      "Streamline your business operations with our proven process optimization strategies. We analyze your current workflows and identify bottlenecks to improve efficiency and reduce costs.",
      "Our team of experts will work with you to implement lean methodologies and automation solutions that will transform your business processes and drive measurable results."),
    "Market Insights" := ServiceRecord(
      "https://images.unsplash.com/photo-1573496359142-b8d87734a5a2?ixlib=rb-4.0.3&ixid=M3wxMjA3fDB8MHxwaG90by1wYWdlfHx8fGVufDB8fHx8fA%3D%3D&auto=format&fit=crop&w=1000&q=80",
      "Market Insights",
      "Gain competitive advantage with comprehensive market research and analysis. We provide deep insights into market trends, customer behavior, and competitive landscape.",
      "Our data-driven approach helps you make informed decisions, identify new opportunities, and stay ahead of market changes with actionable intelligence."),
    "Financial Planning" := ServiceRecord(
      "https://images.unsplash.com/photo-1554224155-6726b3ff858f?ixlib=rb-4.0.3&ixid=M3wxMjA3fDB8MHxwaG90by1wYWdlfHx8fGVufDB8fHx8fA%3D%3D&auto=format&fit=crop&w=1000&q=80",
      "Financial Planning",
      "Optimize your financial strategy with expert planning and analysis. We help you create robust financial models and investment strategies for sustainable growth.",
      "From budgeting and forecasting to risk management and investment planning, our financial experts will guide you toward achieving your business objectives."),
    "Operations Management" := ServiceRecord(
      "https://images.unsplash.com/photo-1507003211169-0a1dd7228f2d?ixlib=rb-4.0.3&ixid=M3wxMjA3fDB8MHxwaG90by1wYWdlfHx8fGVufDB8fHx8fA%3D%3D&auto=format&fit=crop&w=1000&q=80",
      "Operations Management",
      "Transform your operations with strategic management solutions. We help you optimize supply chains, improve quality control, and enhance operational efficiency.",
      "Our comprehensive approach covers everything from resource allocation to performance monitoring, ensuring your operations run smoothly and profitably."),
    "Growth Consulting" := ServiceRecord(
      "https://images.unsplash.com/photo-1522202176988-66273c2fd55f?ixlib=rb-4.0.3&ixid=M3wxMjA3fDB8MHxwaG90by1wYWdlfHx8fGVufDB8fHx8fA%3D%3D&auto=format&fit=crop&w=1000&q=80",
      "Growth Consulting",
      "Accelerate your business growth with strategic consulting services. We develop customized growth strategies that align with your vision and market opportunities.",
      "From market expansion to product development, our growth experts will help you scale your business sustainably and achieve long-term success.")
  ]

  /** The detail panel: the image's `src` and `alt`, the three text fields,
      and the panel's opacity, transform and transition styles. */
  datatype Panel = Panel(
    imageSrc: string, imageAlt: string, title: string,
    description1: string, description2: string,
    opacity: string, transform: string, transition: string)

  /** The panel displays record `rec`. */
  predicate Shows(p: Panel, rec: ServiceRecord) {
    && p.imageSrc == rec.image
    && p.imageAlt == rec.title
    && p.title == rec.title
    && p.description1 == rec.description1
    && p.description2 == rec.description2
  }

  /** The panel is faded back in. */
  predicate Settled(p: Panel) {
    p.opacity == "1" && p.transform == "translateY(0)" && p.transition == "all 0.5s ease"
  }

  /** `updateServiceContent`, once its deferred swap has run: a label missing
      from the table leaves the panel untouched; a listed label shows its
      record in a settled panel. */
  function UpdateServiceContent(p: Panel, serviceName: string): (r: Panel)
    ensures serviceName !in ServicesData ==> r == p
    ensures serviceName in ServicesData ==> Shows(r, ServicesData[serviceName]) && Settled(r)
  {
    if serviceName in ServicesData then
      var rec := ServicesData[serviceName];
      Panel(rec.image, rec.title, rec.title, rec.description1, rec.description2,
            "1", "translateY(0)", "all 0.5s ease")
    else p
  }

  /** The service items' labels (the text of each item's `span`), their
      `active` flags, and the detail panel. */
  datatype Switcher = Switcher(labels: seq<string>, active: seq<bool>, panel: Panel)

  predicate Valid(s: Switcher) {
    |s.active| == |s.labels|
  }

  /** A click on service item `i`. */
  function ClickService(s: Switcher, i: nat): (r: Switcher)
    requires Valid(s) && i < |s.labels|
    ensures Valid(r) && r.labels == s.labels
    ensures r.active[i] && OnlyAt(r.active, i)
    ensures s.labels[i] in ServicesData ==> Shows(r.panel, ServicesData[s.labels[i]]) && Settled(r.panel)
    ensures s.labels[i] !in ServicesData ==> r.panel == s.panel
  {
    var cleared := seq(|s.active|, j requires 0 <= j < |s.active| => false);
    Switcher(s.labels, cleared[i := true], UpdateServiceContent(s.panel, s.labels[i]))
  }

  /** After a click exactly one item is active. */
  lemma ClickLeavesOneActive(s: Switcher, i: nat)
    requires Valid(s) && i < |s.labels|
    ensures CountTrue(ClickService(s, i).active) == 1
  {
    CountOnlyAt(ClickService(s, i).active, i);
  }

  /** Every record is titled by its own label. */
  lemma TitlesMatchLabels()
    ensures forall serviceName :: serviceName in ServicesData ==> ServicesData[serviceName].title == serviceName
  {
  }

  /** After a click on a listed service the panel's title is that label. */
  lemma ClickedTitleIsLabel(s: Switcher, i: nat)
    requires Valid(s) && i < |s.labels| && s.labels[i] in ServicesData
    ensures ClickService(s, i).panel.title == s.labels[i]
  {
    TitlesMatchLabels();
  }

  /** Two swaps in a row: the last listed label wins, and an unlisted one
      keeps what the first swap showed. */
  lemma LastSwapWins(p: Panel, first: string, second: string)
    ensures second in ServicesData ==>
              UpdateServiceContent(UpdateServiceContent(p, first), second) == UpdateServiceContent(p, second)
    ensures second !in ServicesData ==>
              UpdateServiceContent(UpdateServiceContent(p, first), second) == UpdateServiceContent(p, first)
  {
  }
}

=== FILE: text.dfy ===
/**
 The string primitives the page script relies on, as ECMAScript defines them:
 the whitespace class shared by the regular-expression escape `\s` and
 `String.prototype.trim`, trimming itself, and `split` on a one-character
 separator together with its inverse `join`.
 */
module Text {

  /** The ECMAScript WhiteSpace and LineTerminator code points: exactly the
      characters `\s` matches and `trim` removes. */
  predicate IsWhitespace(c: char) {
    || c == '\t' || c == '\n' || c == '\U{B}' || c == '\U{C}' || c == '\r'
    || c == ' ' || c == '\U{A0}' || c == '\U{1680}'
    || ('\U{2000}' <= c <= '\U{200A}')
    || c == '\U{2028}' || c == '\U{2029}' || c == '\U{202F}' || c == '\U{205F}'
    || c == '\U{3000}' || c == '\U{FEFF}'
  }

  predicate AllWhitespace(s: string) {
    forall i :: 0 <= i < |s| ==> IsWhitespace(s[i])
  }

  /** `r` is `s` with the whitespace-only prefix of length `a` and a
      whitespace-only suffix cut away. */
  ghost predicate Framed(s: string, r: string, a: int) {
    && 0 <= a && a + |r| <= |s|
    && s[a..a + |r|] == r
    && AllWhitespace(s[..a])
    && AllWhitespace(s[a + |r|..])
  }

  function TrimStart(s: string): (r: string)
    ensures |r| <= |s| && r == s[|s| - |r|..]
    ensures AllWhitespace(s[..|s| - |r|])
    ensures r == [] || !IsWhitespace(r[0])
  {
    if s == [] || !IsWhitespace(s[0]) then s
    else
      var r := TrimStart(s[1..]);
      assert s[1..][..|s| - 1 - |r|] == s[1..|s| - |r|];
      r
  }

  function TrimEnd(s: string): (r: string)
    ensures |r| <= |s| && r == s[..|r|]
    ensures AllWhitespace(s[|r|..])
    ensures r == [] || !IsWhitespace(r[|r| - 1])
  {
    if s == [] || !IsWhitespace(s[|s| - 1]) then s
    else
      var r := TrimEnd(s[..|s| - 1]);
      assert s[..|s| - 1][|r|..] == s[|r|..|s| - 1];
      r
  }

  /** `String.prototype.trim`: the longest infix of `s` that neither starts
      nor ends with whitespace, framed by whitespace on both sides. */
  function Trim(s: string): (r: string)
    ensures exists a :: Framed(s, r, a)
    ensures r == [] || (!IsWhitespace(r[0]) && !IsWhitespace(r[|r| - 1]))
    ensures r == [] <==> AllWhitespace(s)
  {
    var t := TrimStart(s);
    var r := TrimEnd(t);
    TrimFramed(s, t, r);
    r
  }

  lemma TrimFramed(s: string, t: string, r: string)
    requires |t| <= |s| && t == s[|s| - |t|..] && AllWhitespace(s[..|s| - |t|])
    requires |r| <= |t| && r == t[..|r|] && AllWhitespace(t[|r|..])
    requires r == [] || !IsWhitespace(r[0])
    ensures Framed(s, r, |s| - |t|)
    ensures r == [] <==> AllWhitespace(s)
  {
    var a := |s| - |t|;
    assert s[a..a + |r|] == r;
    assert s[a + |r|..] == t[|r|..];
    if r == [] {
      forall i | 0 <= i < |s|
        ensures IsWhitespace(s[i])
      {
        if i < a {
          assert s[i] == s[..a][i];
        } else {
          assert s[i] == t[|r|..][i - a];
        }
      }
    } else {
      assert s[a] == r[0];
    }
  }

  /** Trimming is idempotent. */
  lemma TrimIdempotent(s: string)
    ensures Trim(Trim(s)) == Trim(s)
  {
  }

  /** Index of the first occurrence of `c` in `s`. */
  function IndexOf(s: string, c: char): (i: nat)
    requires c in s
    ensures i < |s| && s[i] == c && c !in s[..i]
  {
    if s[0] == c then 0
    else
      assert s == [s[0]] + s[1..];
      var j := IndexOf(s[1..], c);
      assert s[..j + 1] == [s[0]] + s[1..][..j];
      j + 1
  }

  /** `s.split(sep)` for a one-character separator: the pieces between
      consecutive separators, so there is always at least one piece. */
  function Split(s: string, sep: char): (parts: seq<string>)
    ensures |parts| >= 1
    ensures forall k :: 0 <= k < |parts| ==> sep !in parts[k]
    decreases |s|
  {
    if sep !in s then [s]
    else
      var i := IndexOf(s, sep);
      [s[..i]] + Split(s[i + 1..], sep)
  }

  /** `parts.join(sep)`. */
  function Join(parts: seq<string>, sep: char): string
    requires |parts| >= 1
  {
    if |parts| == 1 then parts[0] else parts[0] + [sep] + Join(parts[1..], sep)
  }

  /** Joining the pieces of a split gives back the original string. */
  lemma {:induction false} JoinSplit(s: string, sep: char)
    ensures Join(Split(s, sep), sep) == s
    decreases |s|
  {
    if sep in s {
      var i := IndexOf(s, sep);
      JoinSplit(s[i + 1..], sep);
      assert s == s[..i] + [sep] + s[i + 1..];
    }
  }

  /** Splitting a join of separator-free pieces gives back the pieces. */
  lemma {:induction false} SplitJoin(parts: seq<string>, sep: char)
    requires |parts| >= 1
    requires forall k :: 0 <= k < |parts| ==> sep !in parts[k]
    ensures Split(Join(parts, sep), sep) == parts
  {
    if |parts| > 1 {
      var s := Join(parts, sep);
      var tail := Join(parts[1..], sep);
      assert s == parts[0] + [sep] + tail;
      assert sep in s by { assert s[|parts[0]|] == sep; }
      var i := IndexOf(s, sep);
      assert i == |parts[0]|;
      assert s[..i] == parts[0];
      assert s[i + 1..] == tail;
      SplitJoin(parts[1..], sep);
    }
  }

  /** `seg` is the final `sep`-separated segment of `s`: a suffix of `s`
      that holds no separator and is either all of `s` or preceded by one. */
  predicate IsFinalSegment(seg: string, s: string, sep: char) {
    && |seg| <= |s|
    && s[|s| - |seg|..] == seg
    && sep !in seg
    && (|seg| == |s| || s[|s| - |seg| - 1] == sep)
  }

  /** The last piece of a split is the final segment. */
  lemma {:induction false} LastPieceIsFinalSegment(s: string, sep: char)
    ensures IsFinalSegment(Split(s, sep)[|Split(s, sep)| - 1], s, sep)
    decreases |s|
  {
    if sep in s {
      var i := IndexOf(s, sep);
      var rest := s[i + 1..];
      var tail := Split(rest, sep);
      assert Split(s, sep) == [s[..i]] + tail;
      LastPieceIsFinalSegment(rest, sep);
      var seg := tail[|tail| - 1];
      assert Split(s, sep)[|Split(s, sep)| - 1] == seg;
      assert s[|s| - |seg|..] == rest[|rest| - |seg|..];
      if |seg| == |rest| {
        assert s[|s| - |seg| - 1] == s[i];
      } else {
        assert s[|s| - |seg| - 1] == rest[|rest| - |seg| - 1];
      }
    }
  }

  /** A string has only one final segment. */
  lemma FinalSegmentUnique(a: string, b: string, s: string, sep: char)
    requires IsFinalSegment(a, s, sep) && IsFinalSegment(b, s, sep)
    ensures a == b
  {
  }
}

=== FILE: wrappers.dfy ===
/** A value that may be absent, for page elements a script looks up and may not find. */
module Wrappers {

  datatype Option<+T> = None | Some(value: T)
}
